=== FILE: README.md ===
# Contact form email check, modelled in Dafny

This project models the contact form controller of a personal portfolio site,
`js/contact-email.js`. The controller has three parts:

- **The email check.** This is the anchored regular expression `re` and the
  extra `includes('.')` conjunct that both handlers put after it.
- **`validateForm`.** It is assumed to be attached to the form's input events. It marks the required
  controls valid or invalid by emptiness, marks `#email` by the email check,
  and enables or disables the submit button.
- **`handleSubmit` and its response callback.** `handleSubmit` refuses while
  a required control is empty or the email is invalid, and otherwise issues
  one request. The callback reports success or failure from the HTTP status.

The files:

- `chars.dfy`: the character classes of the pattern, with `\s` and the
  line terminators as ECMAScript defines them (no `u` or `s` flag).
- `wrappers.dfy`: a small `Option` type.
- `email_pattern.dfy`: the pattern written clause by clause. Every split
  point the regex engine would find by backtracking is an existential over an
  index, named by an `...At` predicate (`EmailAt`, `DottedAt`, `LabelsAt`,
  `OctetsAt`, `HostNameAt`).
- `email_scan.dfy`: a flat, backtracking-free description of the same
  language, with lemmas proving the two equivalent:
  - the local part ends at the last `@`;
  - a host name's top-level domain starts after the last `.`;
  - a final `]` selects the address literal;
  - dot-separated runs are strings with no leading, trailing or doubled dot.
- `email_facts.dfy`: what the pattern accepts and refuses, stated over whole
  strings.
- `contact_form.dfy`: the page as a value (controls, `#email`, button,
  status markup) and the three handlers as functions from page to page. The
  request and the alert they raise are returned as values.
- `form_facts.dfy`: properties that relate several handler runs:
  - how the button gating compares with the submit decision;
  - the gating the loop evidently intends;
  - what the page allows after each kind of response.

Three behaviours of the code are worth stating up front:

- **The dot conjunct never changes the verdict.** The `includes('.')` test
  after `re.test` adds nothing: both domain alternatives contain a literal
  dot, so the pattern alone already refuses every dot-free string, and
  `user@localhost` is refused either way (`EmailScan.DotConjunctRedundant`,
  `EmailFacts.DotlessRefused`). The model keeps the conjunct as written.
- **The disabled "Done" button is not final.** A later `validateForm` run
  relabels the button, and enables it again once the last required control
  and the email are filled in (`FormFacts.DoneIsNotTerminal`).
- **The button follows the last required control.** See "Findings".

## Model

| member | source | states |
|---|---|---|
| EmailScan.EmailIff | js/contact-email.js:1-2 | A string matches the pattern exactly when the part before its last `@` is a dot-atom or a quoted string and the part after it is a domain. The `@` of a successful match is always the last one. |
| EmailScan.SplitAtLastAt | js/contact-email.js:2 | Whatever split a successful match uses, its `@` is the last `@` of the string, because a domain never holds `@`. |
| EmailScan.DottedIff | js/contact-email.js:2 | `[^<>()[\]\\.,;:\s@"]+(\.[^…]+)*` accepts exactly the non-empty strings of atom characters and dots that neither start nor end with a dot and hold no two dots in a row. This holds for every repeated class. |
| EmailScan.DotRunsIff | js/contact-email.js:2 | The repeated group `(\.[k]+)*` accepts the empty string, or a dot followed by a separated string of class k. |
| EmailScan.LabelsIff | js/contact-email.js:2 | `([a-zA-Z\-0-9]+\.)+` accepts exactly a separated string of label characters followed by one dot. |
| EmailScan.HostNameIff | js/contact-email.js:2 | A host name's top-level domain is what follows its last dot, and what precedes that dot is labels joined by single dots. |
| EmailScan.DomainIff | js/contact-email.js:2 | The two domain alternatives never overlap. A final `]` selects the bracketed address literal; anything else must be a host name. |
| EmailScan.DomainShape | js/contact-email.js:2 | Every domain the pattern accepts contains a dot and no `@`. |
| EmailScan.DotConjunctRedundant | js/contact-email.js:10 | `re.test(v) && v.includes('.')` (here and at line 52) equals `re.test(v)` for every string. |
| EmailFacts.DotlessRefused | js/contact-email.js:2 | The pattern itself refuses every string without a dot, so `user@localhost` is refused. |
| EmailFacts.Rejections | js/contact-email.js:2 | A string without `@` is refused. So is a string not ending in `]` whose last dot is followed by fewer than two characters or by a digit. |
| EmailFacts.TopLevelOfAccepted | js/contact-email.js:2 | In an accepted address not ending in `]`, two or more ASCII letters follow the last dot. |
| EmailFacts.OctetsNotRangeChecked | js/contact-email.js:2 | Any group of one to three digits repeated four times in brackets is accepted, whatever its value; `a@[999.999.999.999]` is one example. |
| EmailFacts.FourOctets | js/contact-email.js:2 | Four 1-3 digit groups joined by dots and bracketed make an address literal. |
| EmailFacts.QuotedLocalMayHoldAt | js/contact-email.js:2 | A quoted local part may hold `@`: `"a@b"@b.com` is accepted, and its last `@` is the separator. |
| EmailFacts.ShortAddressValid | js/contact-email.js:2 | `a@b.com` passes the email check. |
| EmailFacts.UserAtExampleValid | js/contact-email.js:2 | `user@example.com` passes the email check. |
| EmailFacts.Accept | js/contact-email.js:2 | Any local part, `@` and any domain, concatenated, pass the email check. |
| ContactForm.MarkRequired | js/contact-email.js:22-28 | The first loop marks each required control `'invalid'` exactly when its value is empty and `''` otherwise. It leaves every other control and every value unchanged. |
| ContactForm.Gate | js/contact-email.js:30-38 | The second loop leaves the state written for the last required control: `(false, "Send")` when it checks valid and the email is valid, `(true, "Fill in")` otherwise. With no required control, the starting state is kept. |
| ContactForm.ValidateForm | js/contact-email.js:4-42 | The button is `(false, "Send")` exactly when the last required control is non-empty and the email is valid, and `(true, "Fill in")` otherwise. With no required control, the label is `''` and `disabled` is unchanged. The status is cleared. |
| ContactForm.ValidateFormMarks | js/contact-email.js:14-28 | Values are untouched. Each required control is marked invalid iff it is empty, even when it is `#email`. `#email`, when not required, is marked by the email check. Every other control is left alone. |
| ContactForm.AllFilled | js/contact-email.js:56-60 | `formBool` is true exactly when it started true and every value is non-empty. |
| ContactForm.RequiredValues | js/contact-email.js:49 | A string is among the collected values exactly when some required control holds it. |
| ContactForm.Decide | js/contact-email.js:62-101 | The result is "all fields are required" iff some required value is empty, whatever the email. Otherwise it is "invalid email" iff the email check fails, and "send" iff it passes. |
| ContactForm.HandleSubmit | js/contact-email.js:44-101 | A request is issued iff every required control is filled and the email check passes. It carries every control's current value and leaves the page untouched. A missing field wins over a bad email. The status and the alert match the refusal. Controls and button are never changed. |
| ContactForm.Values | js/contact-email.js:53 | The request body holds each control's value, in document order. |
| ContactForm.Reset | js/contact-email.js:81 | `form.reset()` gives every control its default value and changes nothing else. |
| ContactForm.OnResponse | js/contact-email.js:70-84 | Exactly status 200 gives the thanks alert. It also sets `Sent!`, resets every control and sets the button to `(true, "Done")`. Any other status shows the error text and the error alert and keeps controls and button. |
| FormFacts.GateIgnoresEarlierFields | js/contact-email.js:30-38 | Editing any control other than `#email` and the last required one never changes the button. |
| FormFacts.SameLastSameButton | js/contact-email.js:30-38 | Two pages that agree on the last required value and on the email check get the same button. |
| FormFacts.EarlierEmptyFieldIgnored | js/contact-email.js:30-38 | Take required fields `""`, `a@b.com` (the email) and `Hi`. The button is enabled with "Send", yet submitting refuses with the required-fields alert. |
| FormFacts.AllChecked | js/contact-email.js:30-38 | The intended fold is true exactly when the email is valid and every required control checks valid. |
| FormFacts.CheckedIffFilled | js/contact-email.js:22-31 | After the marking, every required control checks valid exactly when none is empty. |
| FormFacts.ValidateFormCorrected | js/contact-email.js:30-38 | With the intended gating, the button is enabled exactly when every required control is filled and the email is valid. That is exactly when `handleSubmit` would issue the request. |
| FormFacts.CorrectedGateRefuses | js/contact-email.js:30-38 | On the page above, the intended gating keeps the button disabled with "Fill in". |
| FormFacts.MarkingSettles | js/contact-email.js:14-28 | Marking a control twice with the same email verdict gives the same result as marking it once. |
| FormFacts.RemarkingKeepsControls | js/contact-email.js:14-28 | A second `validateForm` run leaves the controls as the first left them. |
| FormFacts.RegatingKeepsButton | js/contact-email.js:30-40 | A second `validateForm` run leaves the button as the first left it. |
| FormFacts.ValidateFormIdempotent | js/contact-email.js:4-42 | Running `validateForm` on the page it produced changes nothing. |
| FormFacts.FailureAllowsRetry | js/contact-email.js:70-77 | After a non-200 response, the page keeps its controls and button, so submitting again issues the same request again. |
| FormFacts.SuccessRefusesResubmission | js/contact-email.js:78-84 | Take a form whose defaults are empty and which has a required control. After status 200 the button reads "Done", and submitting again is refused for missing fields. |
| FormFacts.DoneIsNotTerminal | js/contact-email.js:78-84 | After status 200, when the last required control is not `#email`, filling in that control and a valid email re-enables the button with "Send" on the next `validateForm` run. |
| FormFacts.DoneIsNotTerminalWhenEmailLast | js/contact-email.js:78-84 | After status 200, when `#email` is the last required control, typing a valid email into it alone re-enables the button with "Send" on the next `validateForm` run. |

## Left out

- `assets/js/main.js`: only hover animations and fade-in effects, with no state or logic.
- `fetch`, `form.action`, `form.method` and the `Accept` header: network I/O. The request is returned as a value, and the response enters as an abstract integer HTTP status.
- A rejected `fetch` promise: the code has no `.catch`, so nothing is specified for it.
- `Swal.fire`: a foreign UI library. Each alert is recorded as a `Notice` value, by its message.
- Status markup: `innerHTML` is kept as the literal markup string the code writes.
- `checkValidity()`: the browser's native constraints (`type`, `pattern` attributes) are not visible. The model reduces it to "the custom validity message is empty".
- `style.borderColor`: purely cosmetic writes.
- Event wiring: neither source file attaches `validateForm` or `handleSubmit` to any event. `validateForm` is assumed to be attached to the form's input events, and `handleSubmit` to its submit event, by page markup outside the sources.
- Form membership: every `[required]` element and `#email` are assumed to be controls of `#email-form`. The code finds them by searching the whole document, while `FormData` and `form.reset()` act only on the form's own controls. A required control outside the form would be checked by both handlers but neither sent nor reset. The model does not represent it.
- `event.preventDefault()`, event timing and a second submit while a request is in flight: event-loop concerns outside a value model.
- Missing page elements: the page is assumed to hold `#email`, `#submit-email`, `#email-form-status` and `#email-form`. Without `#email` the code throws on `email.value` (line 10 or 51) after only `event.preventDefault()` and the element lookups. Without `#submit-email` it throws at line 32 or 35 once the marking loop has run, or at line 40 when nothing is required, and at line 82 after `form.reset()`. Without `#email-form-status` it throws at line 41, 87 or 95, or at line 72 or 79 inside the callback after the request was issued (on status 200 before the alert, the reset and the button update). Without `#email-form` it throws at line 53.
- ContactForm.Values: `FormData` carries name/value pairs and skips unnamed and disabled controls. The model reduces it to the values of all controls in document order.
- ContactForm.Reset: only values are restored. Checkedness and selection, which `form.reset()` also restores, are not modelled.
- Strings: modelled as sequences of Unicode scalar values, while JavaScript regexes without the `u` flag match UTF-16 code units. Every class in the pattern accepts both halves of a surrogate pair or neither, so the accepted set is the same.

## Findings

| source | as written | input that shows it | evidently intended | confidence | as-written member | corrected member |
|---|---|---|---|---|---|---|
| js/contact-email.js:30-38 | Each required control overwrites `button.disabled` and the label, so only the last required control and the email check decide the button. | Required controls `""`, `a@b.com` (`#email`) and `Hi`. The button is enabled with "Send", yet `handleSubmit` refuses with "All fields are required". | Enable "Send" only when every required control is filled and the email is valid, which is exactly when `handleSubmit` would issue the request. | not executed | FormFacts.EarlierEmptyFieldIgnored | FormFacts.ValidateFormCorrected |

=== FILE: chars.dfy ===
/**
 The character classes used by the contact form's email pattern, written out
 as ECMAScript regular expressions (without the `u` or `s` flags) define them.
 */
module Chars {

  /** The characters `.` refuses when the `s` flag is off: the ECMAScript
      LineTerminator production (LF, CR, LINE SEPARATOR, PARAGRAPH SEPARATOR). */
  predicate IsLineTerminator(c: char) {
    c == '\n' || c == '\r' || c == '\U{2028}' || c == '\U{2029}'
  }

  /** The class `\s`: ECMAScript WhiteSpace (tab, vertical tab, form feed,
      space, no-break space, zero-width no-break space and the other Unicode
      space separators) together with LineTerminator. */
  predicate IsSpace(c: char) {
    || IsLineTerminator(c)
    || c == '\t' || c == '\U{B}' || c == '\U{C}' || c == ' '
    || c == '\U{A0}' || c == '\U{1680}'
    || ('\U{2000}' <= c <= '\U{200A}')
    || c == '\U{202F}' || c == '\U{205F}' || c == '\U{3000}' || c == '\U{FEFF}'
  }

  /** `[0-9]` */
  predicate IsDigit(c: char) {
    '0' <= c <= '9'
  }

  /** `[a-zA-Z]` */
  predicate IsAlpha(c: char) {
    ('a' <= c <= 'z') || ('A' <= c <= 'Z')
  }

  /** `[a-zA-Z\-0-9]`, the characters of a domain label. */
  predicate IsLabelChar(c: char) {
    IsAlpha(c) || IsDigit(c) || c == '-'
  }

  /** `[^<>()[\]\\.,;:\s@\"]`, the characters of an unquoted local-part atom. */
  predicate IsAtomChar(c: char) {
    && c != '<' && c != '>' && c != '(' && c != ')' && c != '[' && c != ']'
    && c != '\\' && c != '.' && c != ',' && c != ';' && c != ':' && c != '@' && c != '"'
    && !IsSpace(c)
  }

  /** The four classes that the pattern repeats with `+`. */
  datatype Class = AtomClass | LabelClass | DigitClass | AlphaClass

  predicate In(c: char, k: Class) {
    match k
    case AtomClass => IsAtomChar(c)
    case LabelClass => IsLabelChar(c)
    case DigitClass => IsDigit(c)
    case AlphaClass => IsAlpha(c)
  }

  /** No repeated class admits the `.` that separates atoms, labels and octets,
      nor the `@` that separates local part and domain. */
  lemma SeparatorsOutsideClasses(k: Class)
    ensures !In('.', k) && !In('@', k)
  {
  }
}

=== FILE: contact_form.dfy ===
/**
 The contact form controller of js/contact-email.js: `validateForm`,
 `handleSubmit`, and the callback that handles the response of the one
 request `handleSubmit` may issue. Page markup outside the file is assumed to
 attach `validateForm` to the form's input events and `handleSubmit` to its
 submit event. The page is a value; each handler is a function from the
 page it reads to the page it leaves behind, and the request and the alert
 it raises are returned as values instead of being performed.
 */
module ContactForm {
  import opened Wrappers
  import opened EmailPattern

  /** A form control: the value it holds, the value `form.reset()` restores,
      whether it carries the `required` attribute, and its custom validity
      message (`''` when valid). */
  datatype Control = Control(value: string, defaultValue: string, required: bool, validity: string)

  /** The submit button `#submit-email`: its `disabled` flag and its label. */
  datatype Button = Button(disabled: bool, text: string)

  /** The page: the form's controls in document order, the index of the
      control `#email`, the submit button, and the markup of the status
      element `#email-form-status`. Every `[required]` element and `#email`
      are taken to be controls of the form, so the document-wide lookups and
      the form-wide `FormData` and `form.reset()` see the same controls. */
  datatype Page = Page(controls: seq<Control>, email: nat, button: Button, status: string)

  /** The page holds the `#email` control the handlers look up. */
  predicate WellFormed(p: Page) {
    p.email < |p.controls|
  }

  const Invalid := "invalid"
  const SendLabel := "Send"
  const FillInLabel := "Fill in"
  const DoneLabel := "Done"
  const RequiredStatus := "<i>All fields are required</i>"
  const InvalidEmailStatus := "<i>Invalid email address</i>"
  const ErrorStatus := "<i>An error has occurred</i>"
  const SentStatus := "<i>Sent!</i>"

  /** `checkValidity()`, reduced to the custom validity the handler sets. */
  predicate CheckValidity(c: Control) {
    c.validity == ""
  }

  /** The email check both handlers make. */
  predicate EmailFieldValid(p: Page)
    requires WellFormed(p)
  {
    EmailValid(p.controls[p.email].value)
  }

  /** There is a required control left empty. */
  predicate SomeRequiredEmpty(cs: seq<Control>) {
    exists i :: 0 <= i < |cs| && cs[i].required && cs[i].value == ""
  }

  // ---------------------------------------------------------------- validateForm

  /** Index of the last control carrying `required`: the element the gating
      loop visits last. */
  function LastRequired(cs: seq<Control>): (r: Option<nat>)
    ensures r.None? <==> forall i :: 0 <= i < |cs| ==> !cs[i].required
    ensures r.Some? ==> r.value < |cs| && cs[r.value].required
    ensures r.Some? ==> forall i :: r.value < i < |cs| ==> !cs[i].required
  {
    if |cs| == 0 then None
    else if cs[|cs| - 1].required then Some(|cs| - 1)
    else LastRequired(cs[..|cs| - 1])
  }

  /** The custom validity the first `forEach` gives one control. */
  function MarkOne(c: Control): Control {
    if !c.required then c
    else if c.value == "" then c.(validity := Invalid)
    else c.(validity := "")
  }

  /** The first `forEach`: every required control is marked invalid exactly
      when it is empty; the others keep their custom validity. */
  function MarkRequired(cs: seq<Control>): (r: seq<Control>)
    ensures |r| == |cs|
    ensures forall i :: 0 <= i < |cs| ==>
      && r[i].value == cs[i].value
      && r[i].defaultValue == cs[i].defaultValue
      && r[i].required == cs[i].required
    ensures forall i :: 0 <= i < |cs| && cs[i].required ==>
      (r[i].validity == Invalid <==> cs[i].value == "") && (r[i].validity == "" <==> cs[i].value != "")
    ensures forall i :: 0 <= i < |cs| && !cs[i].required ==> r[i] == cs[i]
    ensures forall i :: 0 <= i < |cs| ==> r[i] == MarkOne(cs[i])
  {
    if |cs| == 0 then [] else [MarkOne(cs[0])] + MarkRequired(cs[1..])
  }

  /** Both marks on one control: the email mark when it is `#email`, then
      the required mark. */
  function MarkControl(c: Control, isEmail: bool, emailValid: bool): Control {
    MarkOne(if isEmail then c.(validity := if emailValid then "" else Invalid) else c)
  }

  /** The button state one required control leaves in the second `forEach`. */
  function Verdict(c: Control, emailValid: bool): Button {
    if CheckValidity(c) && emailValid then Button(false, SendLabel) else Button(true, FillInLabel)
  }

  /** The second `forEach`, starting from `button.disabled` and the empty
      label: each required control overwrites the state, so the last one
      decides, and with no required control nothing is written. */
  function Gate(cs: seq<Control>, emailValid: bool, start: Button): (r: Button)
    ensures LastRequired(cs).None? ==> r == start
    ensures LastRequired(cs).Some? ==> r == Verdict(cs[LastRequired(cs).value], emailValid)
    decreases |cs|
  {
    if |cs| == 0 then start
    else if cs[0].required then Gate(cs[1..], emailValid, Verdict(cs[0], emailValid))
    else Gate(cs[1..], emailValid, start)
  }

  /** `validateForm`: marks `#email` by the email check, marks every required
      control by emptiness (which overrides the first mark when `#email` is
      itself required), sets the button from the LAST required control and
      the email check, and clears the status. */
  function ValidateForm(p: Page): (q: Page)
    requires WellFormed(p)
    ensures WellFormed(q) && q.email == p.email && |q.controls| == |p.controls|
    ensures LastRequired(p.controls).None? ==> q.button == Button(p.button.disabled, "")
    ensures LastRequired(p.controls).Some? ==>
      var last := p.controls[LastRequired(p.controls).value];
      q.button == (if last.value != "" && EmailFieldValid(p) then Button(false, SendLabel) else Button(true, FillInLabel))
    ensures q.status == ""
  {
    var emailValid := EmailFieldValid(p);
    var e := p.controls[p.email];
    var emailMarked := p.controls[p.email := e.(validity := if emailValid then "" else Invalid)];
    var marked := MarkRequired(emailMarked);
    var b := Gate(marked, emailValid, Button(p.button.disabled, ""));
    GateReadsValues(p.controls, emailMarked, marked, emailValid, p.button.disabled);
    Page(marked, p.email, b, "")
  }

  /** The marks `validateForm` leaves: values, defaults and `required`
      flags are untouched; a required control is marked invalid exactly when
      it is empty; `#email`, when not required, is marked by the email
      check; every other control is left as it was. */
  lemma ValidateFormMarks(p: Page)
    requires WellFormed(p)
    ensures var q := ValidateForm(p);
      && (forall i :: 0 <= i < |p.controls| ==>
            && q.controls[i].value == p.controls[i].value
            && q.controls[i].defaultValue == p.controls[i].defaultValue
            && q.controls[i].required == p.controls[i].required)
      && (forall i :: 0 <= i < |p.controls| && p.controls[i].required ==>
            (q.controls[i].validity == Invalid <==> p.controls[i].value == "")
            && (q.controls[i].validity == "" <==> p.controls[i].value != ""))
      && (!p.controls[p.email].required ==>
            q.controls[p.email].validity == (if EmailFieldValid(p) then "" else Invalid))
      && (forall i :: 0 <= i < |p.controls| && i != p.email && !p.controls[i].required ==>
            q.controls[i] == p.controls[i])
  {
    MarkedControls(p.controls, p.email, EmailFieldValid(p));
  }

  /** The two marking passes of `validateForm` change custom validities only. */
  lemma MarkedControls(cs: seq<Control>, email: nat, emailValid: bool)
    requires email < |cs|
    ensures var marked := MarkRequired(cs[email := cs[email].(validity := if emailValid then "" else Invalid)]);
      && |marked| == |cs|
      && (forall i :: 0 <= i < |cs| ==>
            && marked[i].value == cs[i].value
            && marked[i].defaultValue == cs[i].defaultValue
            && marked[i].required == cs[i].required)
      && (forall i :: 0 <= i < |cs| && cs[i].required ==>
            (marked[i].validity == Invalid <==> cs[i].value == "") && (marked[i].validity == "" <==> cs[i].value != ""))
      && (!cs[email].required ==> marked[email].validity == (if emailValid then "" else Invalid))
      && (forall i :: 0 <= i < |cs| && i != email && !cs[i].required ==> marked[i] == cs[i])
  {
    var emailMarked := cs[email := cs[email].(validity := if emailValid then "" else Invalid)];
    var marked := MarkRequired(emailMarked);
    forall i | 0 <= i < |cs|
      ensures marked[i].value == cs[i].value && marked[i].required == cs[i].required
      ensures marked[i].defaultValue == cs[i].defaultValue
    {
      assert emailMarked[i].value == cs[i].value && emailMarked[i].required == cs[i].required;
    }
  }

  /** After the marking, the control the gating loop visits last is the last
      required control of the page, and it checks valid exactly when it is
      not empty. */
  lemma GateReadsValues(cs: seq<Control>, emailMarked: seq<Control>, marked: seq<Control>, emailValid: bool, disabled: bool)
    requires |emailMarked| == |cs|
    requires forall i :: 0 <= i < |cs| ==>
      emailMarked[i].required == cs[i].required && emailMarked[i].value == cs[i].value
    requires marked == MarkRequired(emailMarked)
    ensures LastRequired(cs).None? ==> Gate(marked, emailValid, Button(disabled, "")) == Button(disabled, "")
    ensures LastRequired(cs).Some? ==>
      var last := cs[LastRequired(cs).value];
      Gate(marked, emailValid, Button(disabled, "")) ==
        (if last.value != "" && emailValid then Button(false, SendLabel) else Button(true, FillInLabel))
  {
    SameRequiredSameLast(marked, emailMarked);
    SameRequiredSameLast(emailMarked, cs);
  }

  /** The gating loop only looks at which controls are required. */
  lemma {:induction false} SameRequiredSameLast(a: seq<Control>, b: seq<Control>)
    requires |a| == |b|
    requires forall i :: 0 <= i < |a| ==> a[i].required == b[i].required
    ensures LastRequired(a) == LastRequired(b)
    decreases |a|
  {
    if |a| > 0 && !a[|a| - 1].required {
      SameRequiredSameLast(a[..|a| - 1], b[..|b| - 1]);
    }
  }

  // ---------------------------------------------------------------- handleSubmit

  /** What `handleSubmit` decides before any request. */
  datatype Decision = AllRequired | InvalidEmail | Send

  /** The alert `Swal.fire` shows, by the message it carries. */
  datatype Notice = MissingFieldsNotice | InvalidEmailNotice | SubmitErrorNotice | ThanksNotice

  /** What `handleSubmit` does beyond the page: show an alert, or issue the
      request carrying the form's current values. */
  datatype Effect = Show(notice: Notice) | Post(data: seq<string>)

  datatype Submission = Submission(page: Page, effect: Effect)

  /** The values of the required controls, in document order. */
  function RequiredValues(cs: seq<Control>): (vs: seq<string>)
    ensures |vs| <= |cs|
    ensures forall v :: v in vs <==> exists i :: 0 <= i < |cs| && cs[i].required && cs[i].value == v
  {
    if |cs| == 0 then []
    else if cs[0].required then [cs[0].value] + RequiredValues(cs[1..])
    else
      var rest := RequiredValues(cs[1..]);
      assert forall v :: v in rest <==> exists i :: 0 <= i < |cs| && cs[i].required && cs[i].value == v by {
        forall v
          ensures v in rest <==> exists i :: 0 <= i < |cs| && cs[i].required && cs[i].value == v
        {
          if v in rest {
            var i :| 0 <= i < |cs[1..]| && cs[1..][i].required && cs[1..][i].value == v;
            assert cs[i + 1] == cs[1..][i];
          }
          if exists i :: 0 <= i < |cs| && cs[i].required && cs[i].value == v {
            var i :| 0 <= i < |cs| && cs[i].required && cs[i].value == v;
            assert i > 0 && cs[1..][i - 1] == cs[i];
          }
        }
      }
      rest
  }

  /** The `formBool` loop: starts from `acc` and falls to false at the first
      empty value, never rising again. */
  function AllFilled(values: seq<string>, acc: bool): (ok: bool)
    ensures ok <==> acc && forall i :: 0 <= i < |values| ==> values[i] != ""
    decreases |values|
  {
    if |values| == 0 then acc
    else AllFilled(values[1..], if values[0] == "" then false else acc)
  }

  /** The decision of `handleSubmit`: a missing required value comes first,
      whatever the email; only then is the email checked. */
  function Decide(values: seq<string>, email: string): (d: Decision)
    ensures d == AllRequired <==> "" in values
    ensures d == InvalidEmail <==> "" !in values && !EmailValid(email)
    ensures d == Send <==> "" !in values && EmailValid(email)
  {
    if AllFilled(values, true) then
      if EmailValid(email) then Send else InvalidEmail
    else AllRequired
  }

  /** The current values of all controls, the body of the request. */
  function Values(cs: seq<Control>): (vs: seq<string>)
    ensures |vs| == |cs| && forall i :: 0 <= i < |cs| ==> vs[i] == cs[i].value
  {
    if |cs| == 0 then [] else [cs[0].value] + Values(cs[1..])
  }

  /** `handleSubmit`: refuses with the required-fields message while any
      required control is empty, refuses with the invalid-email message
      while the email check fails, and otherwise issues the request with the
      page untouched. It never changes a control or the button. */
  function HandleSubmit(p: Page): (r: Submission)
    requires WellFormed(p)
    ensures r.page.controls == p.controls && r.page.email == p.email && r.page.button == p.button
    ensures r.effect.Post? <==> !SomeRequiredEmpty(p.controls) && EmailFieldValid(p)
    ensures r.effect.Post? ==> r.page == p
    ensures r.effect.Post? ==>
      && |r.effect.data| == |p.controls|
      && forall i :: 0 <= i < |p.controls| ==> r.effect.data[i] == p.controls[i].value
    ensures SomeRequiredEmpty(p.controls) ==>
      r.page.status == RequiredStatus && r.effect == Show(MissingFieldsNotice)
    ensures !SomeRequiredEmpty(p.controls) && !EmailFieldValid(p) ==>
      r.page.status == InvalidEmailStatus && r.effect == Show(InvalidEmailNotice)
  {
    match Decide(RequiredValues(p.controls), p.controls[p.email].value)
    case AllRequired => Submission(p.(status := RequiredStatus), Show(MissingFieldsNotice))
    case InvalidEmail => Submission(p.(status := InvalidEmailStatus), Show(InvalidEmailNotice))
    case Send => Submission(p, Post(Values(p.controls)))
  }

  // ---------------------------------------------------------------- the response

  datatype Reply = Reply(page: Page, notice: Notice)

  /** `form.reset()`: every control gets its default value back. */
  function Reset(cs: seq<Control>): (r: seq<Control>)
    ensures |r| == |cs|
    ensures forall i :: 0 <= i < |cs| ==> r[i] == cs[i].(value := cs[i].defaultValue)
  {
    if |cs| == 0 then [] else [cs[0].(value := cs[0].defaultValue)] + Reset(cs[1..])
  }

  /** The response callback, given the HTTP status of the response: exactly
      200 reports success, resets the form and disables the button with the
      label "Done"; any other status reports the error and leaves
      controls and button as they are. */
  function OnResponse(p: Page, httpStatus: int): (r: Reply)
    ensures r.page.email == p.email && |r.page.controls| == |p.controls|
    ensures httpStatus == 200 <==> r.notice == ThanksNotice
    ensures httpStatus == 200 ==>
      && r.page.status == SentStatus
      && r.page.button == Button(true, DoneLabel)
      && forall i :: 0 <= i < |p.controls| ==>
           r.page.controls[i].value == p.controls[i].defaultValue
           && r.page.controls[i] == p.controls[i].(value := p.controls[i].defaultValue)
    ensures httpStatus != 200 ==>
      && r.notice == SubmitErrorNotice
      && r.page.status == ErrorStatus
      && r.page.controls == p.controls
      && r.page.button == p.button
  {
    if httpStatus != 200 then Reply(p.(status := ErrorStatus), SubmitErrorNotice)
    else Reply(Page(Reset(p.controls), p.email, Button(true, DoneLabel), SentStatus), ThanksNotice)
  }
}

=== FILE: email_facts.dfy ===
/**
 What the email pattern accepts and refuses, stated over whole strings.
 */
module EmailFacts {
  import opened Chars
  import opened Wrappers
  import opened EmailPattern
  import opened EmailScan

  /** The last occurrence in a suffix is the last occurrence in the whole. */
  lemma LastIndexInSuffix(s: string, from: nat, c: char)
    requires from <= |s| && LastIndexOf(s[from..], c).Some?
    ensures LastIndexOf(s, c) == Some(from + LastIndexOf(s[from..], c).value)
  {
    var t := s[from..];
    var q := LastIndexOf(t, c).value;
    assert s[from + q] == t[q];
    forall k | from + q < k < |s|
      ensures s[k] != c
    {
      assert s[k] == t[k - from];
    }
  }

  /** A domain that does not end with `]` is a host name. */
  lemma HostDomain(d: string)
    requires Domain(d) && (|d| == 0 || d[|d| - 1] != ']')
    ensures FlatHostName(d)
  {
    DomainIsFlat(d);
  }

  /** The top-level domain of a host-name suffix is the top-level domain of
      the whole string. */
  lemma TopLevelInSuffix(s: string, from: nat)
    requires from <= |s| && FlatHostName(s[from..])
    ensures LastIndexOf(s, '.').Some?
    ensures TopLevel(s[LastIndexOf(s, '.').value + 1..])
  {
    var d := s[from..];
    var q := LastIndexOf(d, '.').value;
    LastIndexInSuffix(s, from, '.');
    assert d[q + 1..] == s[from + q + 1..];
  }

  /** In an accepted address that does not end with `]` (so its domain is a
      host name), what follows the last dot is two or more letters. */
  lemma TopLevelOfAccepted(s: string)
    requires IsEmail(s) && s[|s| - 1] != ']'
    ensures LastIndexOf(s, '.').Some?
    ensures TopLevel(s[LastIndexOf(s, '.').value + 1..])
  {
    var i :| 0 <= i < |s| && EmailAt(s, i);
    var d := s[i + 1..];
    assert |d| == 0 || d[|d| - 1] == s[|s| - 1];
    HostDomain(d);
    TopLevelInSuffix(s, i + 1);
  }

  lemma ShortOrDigitNotTopLevel(s: string, p: nat)
    requires p < |s|
    requires |s| - p - 1 < 2 || exists k :: p < k < |s| && IsDigit(s[k])
    ensures !TopLevel(s[p + 1..])
  {
    if |s| - p - 1 >= 2 {
      var k :| p < k < |s| && IsDigit(s[k]);
      assert s[p + 1..][k - p - 1] == s[k];
    }
  }

  /** The pattern refuses a string without `@`, and refuses a host name whose
      last label is shorter than two characters or holds a digit. */
  lemma Rejections(s: string)
    ensures '@' !in s ==> !EmailValid(s)
    ensures LastIndexOf(s, '.').Some? && s[|s| - 1] != ']' &&
      (var p := LastIndexOf(s, '.').value; |s| - p - 1 < 2 || exists k :: p < k < |s| && IsDigit(s[k]))
      ==> !EmailValid(s)
  {
    var r := LastIndexOf(s, '.');
    if r.Some? && s[|s| - 1] != ']' &&
      (|s| - r.value - 1 < 2 || exists k :: r.value < k < |s| && IsDigit(s[k]))
    {
      ShortOrDigitNotTopLevel(s, r.value);
      if EmailValid(s) {
        TopLevelOfAccepted(s);
      }
    }
  }

  /** Exhibiting the split is enough for the whole email check. */
  lemma AcceptAt(s: string, i: nat)
    requires i < |s| && s[i] == '@' && LocalPart(s[..i]) && Domain(s[i + 1..])
    ensures EmailValid(s)
  {
    assert EmailAt(s, i);
    DotConjunctRedundant(s);
  }

  lemma Accept(local: string, domain: string)
    requires LocalPart(local) && Domain(domain)
    ensures EmailValid(local + "@" + domain)
  {
    var s := local + "@" + domain;
    assert s[..|local|] == local && s[|local| + 1..] == domain;
    AcceptAt(s, |local|);
  }

  lemma OneCharAtom(c: char)
    requires IsAtomChar(c)
    ensures LocalPart([c])
  {
    assert [c][..1] == [c] && [c][1..] == [];
    assert DottedAt([c], 1, AtomClass);
  }

  /** "a@b.com", used by the form examples below. */
  lemma ShortAddressValid()
    ensures EmailValid("a@b.com")
  {
    var s := "a@b.com";
    var local, domain := s[..1], s[2..];
    assert local == "a" && domain == "b.com";
    assert Run(local[..1], AtomClass) && DotRuns(local[1..], AtomClass);
    assert DottedAt(local, 1, AtomClass);
    var labels := domain[..2];
    assert labels == "b.";
    assert Run(labels[..1], LabelClass) && labels[1] == '.';
    assert LabelsAt(labels, 1);
    assert TopLevel(domain[2..]);
    assert HostNameAt(domain, 2);
    assert EmailAt(s, 1);
  }

  /** The common shape: dot-free local part, one label, a top-level domain. */
  lemma UserAtExampleValid()
    ensures EmailValid("user@example.com")
  {
    var s := "user@example.com";
    var local, domain := s[..4], s[5..];
    assert local == "user" && domain == "example.com";
    assert Run(local[..4], AtomClass) && DotRuns(local[4..], AtomClass);
    assert DottedAt(local, 4, AtomClass);
    var labels := domain[..8];
    assert labels == "example.";
    assert Run(labels[..7], LabelClass) && labels[7] == '.';
    assert LabelsAt(labels, 7);
    assert TopLevel(domain[8..]);
    assert HostNameAt(domain, 8);
    assert EmailAt(s, 4);
  }

  /** A string without a dot is refused by the pattern itself, not only by
      the `includes('.')` conjunct: "user@localhost" is refused. */
  lemma DotlessRefused(s: string)
    requires '.' !in s
    ensures !IsEmail(s)
  {
    DotConjunctRedundant(s);
  }

  lemma OctetsJoin(a: string, b: string, n: nat)
    requires Octet(a) && n >= 1 && Octets(b, n)
    ensures Octets(a + ['.'] + b, n + 1)
  {
    var s := a + ['.'] + b;
    assert s[..|a|] == a && s[|a| + 1..] == b;
    assert OctetsAt(s, |a|, n + 1);
  }

  /** Four octets joined by dots and bracketed make an address literal,
      whatever their value. */
  lemma FourOctets(a: string, b: string, c: string, d: string)
    requires Octet(a) && Octet(b) && Octet(c) && Octet(d)
    ensures AddressLiteral(['['] + (a + ['.'] + (b + ['.'] + (c + ['.'] + d))) + [']'])
  {
    var cd := c + ['.'] + d;
    var bcd := b + ['.'] + cd;
    var abcd := a + ['.'] + bcd;
    OctetsJoin(c, d, 1);
    OctetsJoin(b, cd, 2);
    OctetsJoin(a, bcd, 3);
    var lit := ['['] + abcd + [']'];
    assert lit[1..|lit| - 1] == abcd;
  }

  /** Address-literal octets are not range-checked: any group of one to
      three digits passes whatever its value, so "a@[999.999.999.999]" is
      accepted. */
  lemma OctetsNotRangeChecked(o: string)
    requires Octet(o)
    ensures EmailValid("a" + "@" + (['['] + (o + ['.'] + (o + ['.'] + (o + ['.'] + o))) + [']']))
  {
    var domain := ['['] + (o + ['.'] + (o + ['.'] + (o + ['.'] + o))) + [']'];
    OneCharAtom('a');
    FourOctets(o, o, o, o);
    Accept("a", domain);
  }

  /** A quoted local part may itself hold `@`; the split is at the last one. */
  lemma QuotedLocalMayHoldAt()
    ensures EmailValid("\"a@b\"@b.com")
    ensures LastIndexOf("\"a@b\"@b.com", '@') == Some(5)
  {
    var s := "\"a@b\"@b.com";
    var local, domain := s[..5], s[6..];
    assert local == "\"a@b\"" && domain == "b.com";
    assert Quoted(local);
    var labels := domain[..2];
    assert labels == "b.";
    assert Run(labels[..1], LabelClass) && labels[1] == '.';
    assert LabelsAt(labels, 1);
    assert TopLevel(domain[2..]);
    assert HostNameAt(domain, 2);
    assert EmailAt(s, 5);
    SplitAtLastAt(s, 5);
  }
}

=== FILE: email_pattern.dfy ===
/**
 The email pattern `re` of js/contact-email.js, written clause by clause in
 the shape of the regular expression

   ^( [A]+(\.[A]+)* | ".+" ) @ ( \[D{1,3}\.D{1,3}\.D{1,3}\.D{1,3}\] | ([L]+\.)+[a-zA-Z]{2,} )$

 where A is the atom class, D is `[0-9]` and L is `[a-zA-Z\-0-9]`. Every
 concatenation whose split point the regex engine would find by backtracking
 is stated as an existential over the split index.
 */
module EmailPattern {
  import opened Chars

  /** `[k]+`: one or more characters of class k. */
  predicate Run(s: string, k: Class) {
    |s| >= 1 && forall i :: 0 <= i < |s| ==> In(s[i], k)
  }

  /** `(\.[k]+)*`: zero or more groups, each a dot followed by a run. */
  predicate DotRuns(s: string, k: Class)
    decreases |s|, 1
  {
    || s == []
    || (s[0] == '.' && exists j :: 2 <= j <= |s| && DotRunsAt(s, j, k))
  }

  /** The first group of `(\.[k]+)*` ends at j. */
  predicate DotRunsAt(s: string, j: nat, k: Class)
    requires 2 <= j <= |s|
    decreases |s| - 1, 0
  {
    s[0] == '.' && Run(s[1..j], k) && DotRuns(s[j..], k)
  }

  /** `[k]+(\.[k]+)*`: runs of class k joined by single dots. */
  predicate Dotted(s: string, k: Class) {
    exists j :: 1 <= j <= |s| && DottedAt(s, j, k)
  }

  /** The leading run of `[k]+(\.[k]+)*` ends at j. */
  predicate DottedAt(s: string, j: nat, k: Class)
    requires j <= |s|
  {
    Run(s[..j], k) && DotRuns(s[j..], k)
  }

  /** `".+"`: a double quote, at least one character other than a line
      terminator (double quotes and `@` included), and a double quote. */
  predicate Quoted(s: string) {
    && |s| >= 3
    && s[0] == '"' && s[|s| - 1] == '"'
    && forall i :: 1 <= i < |s| - 1 ==> !IsLineTerminator(s[i])
  }

  /** The local part: a dot-atom or a quoted string. */
  predicate LocalPart(s: string) {
    Dotted(s, AtomClass) || Quoted(s)
  }

  /** `[0-9]{1,3}` */
  predicate Octet(s: string) {
    |s| <= 3 && Run(s, DigitClass)
  }

  /** `n` octets joined by dots: `[0-9]{1,3}(\.[0-9]{1,3}){n-1}`. */
  predicate Octets(s: string, n: nat)
    requires n >= 1
    decreases n, 1
  {
    if n == 1 then Octet(s)
    else exists i :: 1 <= i < |s| && OctetsAt(s, i, n)
  }

  /** The first of `n` dotted octets ends at i, where the dot is. */
  predicate OctetsAt(s: string, i: nat, n: nat)
    requires 1 <= i < |s| && n >= 2
    decreases n, 0
  {
    Octet(s[..i]) && s[i] == '.' && Octets(s[i + 1..], n - 1)
  }

  /** `\[[0-9]{1,3}\.[0-9]{1,3}\.[0-9]{1,3}\.[0-9]{1,3}\]` */
  predicate AddressLiteral(s: string) {
    |s| >= 2 && s[0] == '[' && s[|s| - 1] == ']' && Octets(s[1..|s| - 1], 4)
  }

  /** `([a-zA-Z\-0-9]+\.)+`: one or more labels, each followed by a dot. */
  predicate Labels(s: string)
    decreases |s|, 1
  {
    exists j :: 1 <= j < |s| && LabelsAt(s, j)
  }

  /** The first label of `([a-zA-Z\-0-9]+\.)+` ends at j, where its dot is. */
  predicate LabelsAt(s: string, j: nat)
    requires 1 <= j < |s|
    decreases |s| - 1, 0
  {
    Run(s[..j], LabelClass) && s[j] == '.' && (j + 1 == |s| || Labels(s[j + 1..]))
  }

  /** `[a-zA-Z]{2,}` */
  predicate TopLevel(s: string) {
    |s| >= 2 && Run(s, AlphaClass)
  }

  /** `([a-zA-Z\-0-9]+\.)+[a-zA-Z]{2,}` */
  predicate HostName(s: string) {
    exists j :: 2 <= j <= |s| - 2 && HostNameAt(s, j)
  }

  /** The top-level domain of a host name starts at j. */
  predicate HostNameAt(s: string, j: nat)
    requires j <= |s|
  {
    Labels(s[..j]) && TopLevel(s[j..])
  }

  /** The domain: an address literal or a host name. */
  predicate Domain(s: string) {
    AddressLiteral(s) || HostName(s)
  }

  /** `re.test(s)`: the whole string is a local part, an `@` and a domain.
      A quoted local part may itself contain `@`, so the split is existential. */
  predicate IsEmail(s: string) {
    exists i :: 0 <= i < |s| && EmailAt(s, i)
  }

  /** The `@` between local part and domain is at i. */
  predicate EmailAt(s: string, i: nat)
    requires i < |s|
  {
    s[i] == '@' && LocalPart(s[..i]) && Domain(s[i + 1..])
  }

  /** `re.test(v) && v.includes('.')`, the email check of both handlers. */
  predicate EmailValid(s: string) {
    IsEmail(s) && '.' in s
  }
}

=== FILE: email_scan.dfy ===
/**
 A flat, backtracking-free description of the email pattern: where the regex
 searches for split points, this module fixes them (the local part ends at
 the last `@`, the top-level domain starts after the last `.`) and states
 each dotted part by what its characters look like. The lemmas prove the
 flat description equivalent to the regex-shaped one in EmailPattern.
 */
module EmailScan {
  import opened Chars
  import opened Wrappers
  import opened EmailPattern

  /** Index of the first `c` in `s` at or after `from`, or `|s|` when
      there is none. */
  function IndexFrom(s: string, c: char, from: nat): (r: nat)
    requires from <= |s|
    ensures from <= r <= |s|
    ensures r < |s| ==> s[r] == c
    ensures forall i :: from <= i < r ==> s[i] != c
    decreases |s| - from
  {
    if from == |s| then |s|
    else if s[from] == c then from
    else IndexFrom(s, c, from + 1)
  }

  /** Index of the first `c` in `s`, or `|s|` when there is none. */
  function IndexOf(s: string, c: char): (r: nat)
    ensures r <= |s|
    ensures r < |s| ==> s[r] == c
    ensures forall i :: 0 <= i < r ==> s[i] != c
  {
    IndexFrom(s, c, 0)
  }

  /** Index of the last `c` among the first `n` characters of `s`, if any. */
  function LastIndexBelow(s: string, c: char, n: nat): (r: Option<nat>)
    requires n <= |s|
    ensures r.None? ==> forall i :: 0 <= i < n ==> s[i] != c
    ensures r.Some? ==> r.value < n && s[r.value] == c
    ensures r.Some? ==> forall i :: r.value < i < n ==> s[i] != c
  {
    if n == 0 then None
    else if s[n - 1] == c then Some(n - 1)
    else LastIndexBelow(s, c, n - 1)
  }

  /** Index of the last `c` in `s`, if any. */
  function LastIndexOf(s: string, c: char): (r: Option<nat>)
    ensures r.None? <==> c !in s
    ensures r.Some? ==> r.value < |s| && s[r.value] == c
    ensures r.Some? ==> forall i :: r.value < i < |s| ==> s[i] != c
  {
    LastIndexBelow(s, c, |s|)
  }

  /** An occurrence with none after it is the last one. */
  lemma LastIndexAt(s: string, c: char, i: nat)
    requires i < |s| && s[i] == c
    requires forall t :: i < t < |s| ==> s[t] != c
    ensures LastIndexOf(s, c) == Some(i)
  {
    assert c in s;
  }

  /** Runs of class k joined by single dots, said flatly: not empty, only
      class-k characters and dots, no dot first or last, no two dots in a row. */
  predicate Separated(s: string, k: Class) {
    && |s| >= 1
    && s[0] != '.' && s[|s| - 1] != '.'
    && (forall i :: 0 <= i < |s| ==> In(s[i], k) || s[i] == '.')
    && (forall i :: 0 <= i < |s| - 1 ==> !DoubleDotAt(s, i))
  }

  /** Two dots in a row at index i. */
  predicate DoubleDotAt(s: string, i: nat)
    requires i + 1 < |s|
  {
    s[i] == '.' && s[i + 1] == '.'
  }

  /** A host name, said flatly: the top-level domain is what follows the last
      dot, and what precedes that dot is labels joined by single dots. */
  predicate FlatHostName(s: string) {
    match LastIndexOf(s, '.')
    case None => false
    case Some(p) => Separated(s[..p], LabelClass) && TopLevel(s[p + 1..])
  }

  /** A domain, said flatly: a closing bracket at the end selects the
      address literal, anything else the host name. */
  predicate FlatDomain(s: string) {
    if |s| > 0 && s[|s| - 1] == ']' then AddressLiteral(s) else FlatHostName(s)
  }

  /** The whole pattern, said flatly: the local part is everything before the
      last `@`, the domain everything after it. */
  predicate FlatEmail(s: string) {
    match LastIndexOf(s, '@')
    case None => false
    case Some(p) => FlatLocal(s[..p]) && FlatDomain(s[p + 1..])
  }

  /** A local part, said flatly: separated atoms or a quoted string. */
  predicate FlatLocal(s: string) {
    Separated(s, AtomClass) || Quoted(s)
  }

  lemma RunIsSeparated(s: string, k: Class)
    requires Run(s, k)
    ensures Separated(s, k)
  {
    SeparatorsOutsideClasses(k);
  }

  /** A run, a dot and a separated string make a separated string. */
  lemma JoinAt(s: string, j: nat, k: Class)
    requires 1 <= j < |s| && Run(s[..j], k) && s[j] == '.' && Separated(s[j + 1..], k)
    ensures Separated(s, k)
  {
    SeparatorsOutsideClasses(k);
    var a, b := s[..j], s[j + 1..];
    forall i | 0 <= i < |s| - 1
      ensures !DoubleDotAt(s, i)
    {
      if i < j {
        assert s[i] == a[i];
      } else if i > j {
        assert s[i] == b[i - j - 1] && s[i + 1] == b[i - j];
        assert !DoubleDotAt(b, i - j - 1);
      }
    }
    forall i | 0 <= i < |s|
      ensures In(s[i], k) || s[i] == '.'
    {
      if i < j {
        assert s[i] == a[i];
      } else if i > j {
        assert s[i] == b[i - j - 1];
      }
    }
    assert s[|s| - 1] == b[|b| - 1];
  }

  /** What follows a dot inside a separated string is separated. */
  lemma SeparatedAfterDot(s: string, j: nat, k: Class)
    requires Separated(s, k) && 1 <= j < |s| && s[j - 1] == '.'
    ensures Separated(s[j..], k)
  {
    var t := s[j..];
    assert t[0] == s[j] && !DoubleDotAt(s, j - 1);
    assert t[|t| - 1] == s[|s| - 1];
    forall i | 0 <= i < |t|
      ensures In(t[i], k) || t[i] == '.'
    {
      assert t[i] == s[j + i];
    }
    forall i | 0 <= i < |t| - 1
      ensures !DoubleDotAt(t, i)
    {
      assert t[i] == s[j + i] && t[i + 1] == s[j + i + 1];
      assert !DoubleDotAt(s, j + i);
    }
  }

  /** The dot-free prefix of a separated string is a run. */
  lemma RunBeforeDot(s: string, m: nat, k: Class)
    requires Separated(s, k) && 1 <= m <= |s|
    requires forall i :: 0 <= i < m ==> s[i] != '.'
    ensures Run(s[..m], k)
  {
    var h := s[..m];
    forall i | 0 <= i < m
      ensures In(h[i], k)
    {
      assert h[i] == s[i];
    }
  }

  /** The first `c` in `s`, as a value the caller can name. */
  lemma FirstIndex(s: string, c: char) returns (m: nat)
    ensures m <= |s| && (m < |s| ==> s[m] == c)
    ensures forall i :: 0 <= i < m ==> s[i] != c
  {
    m := IndexOf(s, c);
  }

  /** Cutting a separated string at its first dot leaves a run and, if there
      was a dot, a separated rest. */
  lemma SplitAtFirstDot(s: string, k: Class) returns (m: nat)
    requires Separated(s, k)
    ensures 1 <= m <= |s| && Run(s[..m], k)
    ensures m < |s| ==> s[m] == '.' && m + 1 < |s| && Separated(s[m + 1..], k)
  {
    m := FirstIndex(s, '.');
    assert m != 0 by {
      assert s[0] != '.';
    }
    RunBeforeDot(s, m, k);
    if m < |s| {
      assert s[|s| - 1] != '.';
      SeparatedAfterDot(s, m + 1, k);
    }
  }

  lemma {:induction false} DotRunsSeparated(t: string, k: Class)
    requires t != [] && DotRuns(t, k)
    ensures t[0] == '.' && |t| >= 2 && Separated(t[1..], k)
    decreases |t|
  {
    var j :| 2 <= j <= |t| && DotRunsAt(t, j, k);
    var u := t[1..];
    assert u[..j - 1] == t[1..j];
    if j == |t| {
      assert u == u[..j - 1];
      RunIsSeparated(u, k);
    } else {
      DotRunsSeparated(t[j..], k);
      assert u[j..] == t[j..][1..];
      JoinAt(u, j - 1, k);
    }
  }

  lemma {:induction false} SeparatedDotRuns(t: string, k: Class)
    requires |t| >= 2 && t[0] == '.' && Separated(t[1..], k)
    ensures DotRuns(t, k)
    decreases |t|
  {
    var u := t[1..];
    var m := SplitAtFirstDot(u, k);
    var j := m + 1;
    assert t[1..j] == u[..m];
    assert t[j..] == u[m..];
    if m < |u| {
      assert u[m..][1..] == u[m + 1..];
      SeparatedDotRuns(u[m..], k);
    }
    assert DotRunsAt(t, j, k);
  }

  lemma DotRunsIff(t: string, k: Class)
    ensures DotRuns(t, k) <==> (t == [] || (t[0] == '.' && |t| >= 2 && Separated(t[1..], k)))
  {
    if t != [] && DotRuns(t, k) {
      DotRunsSeparated(t, k);
    }
    if t != [] && t[0] == '.' && |t| >= 2 && Separated(t[1..], k) {
      SeparatedDotRuns(t, k);
    }
  }

  lemma DottedIsSeparated(s: string, k: Class)
    requires Dotted(s, k)
    ensures Separated(s, k)
  {
    var j :| 1 <= j <= |s| && DottedAt(s, j, k);
    if j == |s| {
      assert s == s[..j];
      RunIsSeparated(s, k);
    } else {
      DotRunsSeparated(s[j..], k);
      assert s[j..][1..] == s[j + 1..];
      JoinAt(s, j, k);
    }
  }

  lemma SeparatedIsDotted(s: string, k: Class)
    requires Separated(s, k)
    ensures Dotted(s, k)
  {
    var m := SplitAtFirstDot(s, k);
    if m < |s| {
      assert s[m..][1..] == s[m + 1..];
      SeparatedDotRuns(s[m..], k);
    }
    assert DottedAt(s, m, k);
  }

  /** Runs joined by single dots (`[k]+(\.[k]+)*`) are exactly the separated
      strings; for the atom class: a dot-atom local part never starts or ends
      with a dot and never holds two dots in a row, and every such string of
      atom characters and dots is a dot-atom. */
  lemma DottedIff(s: string, k: Class)
    ensures Dotted(s, k) <==> Separated(s, k)
  {
    if Dotted(s, k) {
      DottedIsSeparated(s, k);
    }
    if Separated(s, k) {
      SeparatedIsDotted(s, k);
    }
  }

  lemma {:induction false} LabelsSeparated(s: string)
    requires Labels(s)
    ensures |s| >= 2 && s[|s| - 1] == '.' && Separated(s[..|s| - 1], LabelClass)
    decreases |s|
  {
    var j :| 1 <= j < |s| && LabelsAt(s, j);
    var u := s[..|s| - 1];
    if j + 1 == |s| {
      assert u == s[..j];
      RunIsSeparated(u, LabelClass);
    } else {
      var r := s[j + 1..];
      assert Separated(r[..|r| - 1], LabelClass) && r[|r| - 1] == '.' by {
        LabelsSeparated(r);
      }
      assert u[..j] == s[..j];
      InitOfSuffix(s, j + 1);
      JoinAt(u, j, LabelClass);
    }
  }

  /** Dropping a prefix and then the last element is dropping the last
      element and then the prefix. */
  lemma InitOfSuffix(s: string, j: nat)
    requires j < |s|
    ensures s[j..][..|s| - j - 1] == s[..|s| - 1][j..]
  {
    var a, b := s[j..][..|s| - j - 1], s[..|s| - 1][j..];
    forall t | 0 <= t < |a|
      ensures a[t] == b[t]
    {
      assert a[t] == s[j + t] && b[t] == s[j + t];
    }
  }

  lemma {:induction false} SeparatedLabels(s: string)
    requires |s| >= 2 && s[|s| - 1] == '.' && Separated(s[..|s| - 1], LabelClass)
    ensures Labels(s)
    decreases |s|
  {
    var u := s[..|s| - 1];
    var m := SplitAtFirstDot(u, LabelClass);
    assert s[..m] == u[..m];
    if m < |u| {
      var r := s[m + 1..];
      assert s[m] == u[m];
      InitOfSuffix(s, m + 1);
      assert r[|r| - 1] == s[|s| - 1];
      SeparatedLabels(r);
    }
    assert LabelsAt(s, m);
  }

  /** `([a-zA-Z\-0-9]+\.)+` is exactly: labels joined by single dots, then a dot. */
  lemma LabelsIff(s: string)
    ensures Labels(s) <==> (|s| >= 2 && s[|s| - 1] == '.' && Separated(s[..|s| - 1], LabelClass))
  {
    if Labels(s) {
      LabelsSeparated(s);
    }
    if |s| >= 2 && s[|s| - 1] == '.' && Separated(s[..|s| - 1], LabelClass) {
      SeparatedLabels(s);
    }
  }

  lemma HostNameIsFlat(s: string)
    requires HostName(s)
    ensures FlatHostName(s)
  {
    var j :| 2 <= j <= |s| - 2 && HostNameAt(s, j);
    var labels, tld := s[..j], s[j..];
    assert labels[j - 1] == '.' && Separated(labels[..j - 1], LabelClass) by {
      LabelsSeparated(labels);
    }
    forall i | j - 1 < i < |s|
      ensures s[i] != '.'
    {
      assert s[i] == tld[i - j];
    }
    assert s[j - 1] == labels[j - 1];
    LastIndexAt(s, '.', j - 1);
    assert labels[..j - 1] == s[..j - 1];
  }

  lemma FlatIsHostName(s: string)
    requires FlatHostName(s)
    ensures HostName(s)
  {
    var p := LastIndexOf(s, '.').value;
    var j := p + 1;
    var labels := s[..j];
    assert labels[..p] == s[..p] && labels[p] == '.';
    assert Labels(labels) by {
      SeparatedLabels(labels);
    }
    assert HostNameAt(s, j);
  }

  /** The regex-shaped host name and the flat one agree on every string. */
  lemma HostNameIff(s: string)
    ensures HostName(s) <==> FlatHostName(s)
  {
    if HostName(s) {
      HostNameIsFlat(s);
    }
    if FlatHostName(s) {
      FlatIsHostName(s);
    }
  }

  lemma OctetNoAt(s: string)
    requires Octet(s)
    ensures '@' !in s
  {
  }

  lemma NoAtAround(s: string, i: nat)
    requires i < |s| && s[i] != '@' && '@' !in s[..i] && '@' !in s[i + 1..]
    ensures '@' !in s
  {
    assert s == s[..i] + [s[i]] + s[i + 1..];
  }

  /** Dotted octets never hold `@`. */
  lemma {:induction false} OctetsNoAt(s: string, n: nat)
    requires n >= 1 && Octets(s, n)
    ensures '@' !in s
    decreases n
  {
    if n == 1 {
      OctetNoAt(s);
    } else {
      var i :| 1 <= i < |s| && OctetsAt(s, i, n);
      OctetNoAt(s[..i]);
      OctetsNoAt(s[i + 1..], n - 1);
      NoAtAround(s, i);
    }
  }

  /** An address literal holds a dot and no `@`. */
  lemma AddressLiteralShape(s: string)
    requires AddressLiteral(s)
    ensures '@' !in s && '.' in s
  {
    var inner := s[1..|s| - 1];
    assert '@' !in s by {
      OctetsNoAt(inner, 4);
      assert s == [s[0]] + inner + [s[|s| - 1]];
    }
    assert '.' in s by {
      var d :| 1 <= d < |inner| && OctetsAt(inner, d, 4);
      assert s[d + 1] == '.';
    }
  }

  /** A host name holds a dot and no `@`. */
  lemma HostNameShape(s: string)
    requires FlatHostName(s)
    ensures '@' !in s && '.' in s
  {
    var p := LastIndexOf(s, '.').value;
    var labels, tld := s[..p], s[p + 1..];
    SeparatorsOutsideClasses(LabelClass);
    forall i | 0 <= i < |s|
      ensures s[i] != '@'
    {
      if i < p {
        assert s[i] == labels[i];
      } else if i > p {
        assert s[i] == tld[i - p - 1];
      }
    }
  }

  /** A domain never contains `@` and always contains a dot. */
  lemma DomainShape(s: string)
    requires Domain(s)
    ensures '@' !in s && '.' in s
  {
    if AddressLiteral(s) {
      AddressLiteralShape(s);
    } else {
      HostNameIsFlat(s);
      HostNameShape(s);
    }
  }

  /** A host name ends with a letter. */
  lemma HostNameEndsWithLetter(s: string)
    requires FlatHostName(s)
    ensures |s| > 0 && IsAlpha(s[|s| - 1])
  {
    var p := LastIndexOf(s, '.').value;
    var tld := s[p + 1..];
    assert s[|s| - 1] == tld[|tld| - 1];
  }

  lemma DomainIsFlat(s: string)
    requires Domain(s)
    ensures FlatDomain(s)
  {
    if !AddressLiteral(s) {
      HostNameIsFlat(s);
      HostNameEndsWithLetter(s);
    }
  }

  lemma FlatIsDomain(s: string)
    requires FlatDomain(s)
    ensures Domain(s)
  {
    if !AddressLiteral(s) {
      FlatIsHostName(s);
    }
  }

  /** The two domain forms are told apart by the last character. */
  lemma DomainIff(s: string)
    ensures Domain(s) <==> FlatDomain(s)
  {
    if Domain(s) {
      DomainIsFlat(s);
    }
    if FlatDomain(s) {
      FlatIsDomain(s);
    }
  }

  lemma SplitAtLastAt(s: string, i: nat)
    requires i < |s| && s[i] == '@' && Domain(s[i + 1..])
    ensures LastIndexOf(s, '@') == Some(i)
  {
    var d := s[i + 1..];
    DomainShape(d);
    forall t | i < t < |s|
      ensures s[t] != '@'
    {
      assert s[t] == d[t - i - 1];
    }
    LastIndexAt(s, '@', i);
  }

  lemma LocalPartIsFlat(s: string)
    requires LocalPart(s)
    ensures FlatLocal(s)
  {
    if Dotted(s, AtomClass) {
      DottedIsSeparated(s, AtomClass);
    }
  }

  lemma FlatLocalIsLocalPart(s: string)
    requires FlatLocal(s)
    ensures LocalPart(s)
  {
    if Separated(s, AtomClass) {
      SeparatedIsDotted(s, AtomClass);
    }
  }

  lemma FlatEmailAt(s: string, i: nat)
    requires i < |s| && LastIndexOf(s, '@') == Some(i)
    requires FlatLocal(s[..i]) && FlatDomain(s[i + 1..])
    ensures FlatEmail(s)
  {
  }

  lemma PatternIsFlat(s: string)
    requires IsEmail(s)
    ensures FlatEmail(s)
  {
    var i :| 0 <= i < |s| && EmailAt(s, i);
    SplitAtLastAt(s, i);
    LocalPartIsFlat(s[..i]);
    DomainIsFlat(s[i + 1..]);
    FlatEmailAt(s, i);
  }

  lemma FlatIsPattern(s: string)
    requires FlatEmail(s)
    ensures IsEmail(s)
  {
    var p := LastIndexOf(s, '@').value;
    FlatLocalIsLocalPart(s[..p]);
    FlatIsDomain(s[p + 1..]);
    assert EmailAt(s, p);
  }

  /** The pattern splits at the last `@`, and the flat description decides it. */
  lemma EmailIff(s: string)
    ensures IsEmail(s) <==> FlatEmail(s)
  {
    if IsEmail(s) {
      PatternIsFlat(s);
    }
    if FlatEmail(s) {
      FlatIsPattern(s);
    }
  }

  /** Every string the pattern accepts holds a dot, so the `includes('.')`
      conjunct after `re.test` never changes the verdict. */
  lemma DotConjunctRedundant(s: string)
    ensures EmailValid(s) <==> IsEmail(s)
  {
    if IsEmail(s) {
      var i :| 0 <= i < |s| && EmailAt(s, i);
      DomainShape(s[i + 1..]);
      var d :| 0 <= d < |s[i + 1..]| && s[i + 1..][d] == '.';
      assert s[i + 1 + d] == '.';
    }
  }
}

=== FILE: form_facts.dfy ===
/**
 Properties of the contact form that relate several handler runs: how the
 button gating of `validateForm` compares with the decision of
 `handleSubmit`, and what the page allows after each kind of response.
 */
module FormFacts {
  import opened Wrappers
  import opened EmailPattern
  import opened EmailFacts
  import opened ContactForm

  // ------------------------------------------------ the gating, as written and as meant

  /** The page with control `i` holding `v` instead, as after the user types. */
  function Typed(p: Page, i: nat, v: string): (q: Page)
    requires i < |p.controls|
    ensures WellFormed(p) ==> WellFormed(q)
  {
    p.(controls := p.controls[i := p.controls[i].(value := v)])
  }

  /** As written, the button ignores every required control but the last:
      editing any other control that is not `#email` leaves it unchanged. */
  lemma GateIgnoresEarlierFields(p: Page, i: nat, v: string)
    requires WellFormed(p) && i < |p.controls| && i != p.email
    requires LastRequired(p.controls).Some? && i != LastRequired(p.controls).value
    ensures ValidateForm(Typed(p, i, v)).button == ValidateForm(p).button
  {
    var q := Typed(p, i, v);
    SameRequiredSameLast(q.controls, p.controls);
    var j := LastRequired(p.controls).value;
    assert q.controls[j] == p.controls[j];
    assert q.controls[p.email] == p.controls[p.email];
    SameLastSameButton(p, q);
  }

  /** Two pages that agree on the last required control and on the email
      check get the same button. */
  lemma SameLastSameButton(p: Page, q: Page)
    requires WellFormed(p) && WellFormed(q)
    requires LastRequired(p.controls).Some? && LastRequired(q.controls) == LastRequired(p.controls)
    requires q.controls[LastRequired(p.controls).value].value == p.controls[LastRequired(p.controls).value].value
    requires EmailFieldValid(q) == EmailFieldValid(p)
    ensures ValidateForm(q).button == ValidateForm(p).button
  {
  }

  /** A page where an earlier required field is empty: the button is
      enabled with "Send", yet submitting refuses with the required-fields
      message. */
  lemma EarlierEmptyFieldIgnored(p: Page)
    requires p == Page([Control("", "", true, ""), Control("a@b.com", "", true, ""), Control("Hi", "", true, "")],
                       1, Button(true, FillInLabel), "")
    ensures ValidateForm(p).button == Button(false, SendLabel)
    ensures HandleSubmit(p).effect == Show(MissingFieldsNotice)
  {
    ShortAddressValid();
    assert p.controls[1].value == "a@b.com";
    assert LastRequired(p.controls) == Some(2);
    assert p.controls[0].required && p.controls[0].value == "";
  }

  /** The loop the gating evidently intends: `ok` starts from the email check
      and falls to false at the first required control that does not check
      valid. */
  function AllChecked(cs: seq<Control>, ok: bool): (r: bool)
    ensures r <==> ok && forall i :: 0 <= i < |cs| && cs[i].required ==> CheckValidity(cs[i])
    decreases |cs|
  {
    if |cs| == 0 then ok
    else AllChecked(cs[1..], if cs[0].required && !CheckValidity(cs[0]) then false else ok)
  }

  /** `validateForm` with the intended gating: same markings and status, and
      the button enabled with "Send" exactly when every required control is
      filled and the email check passes, which is exactly when submitting
      would issue the request. */
  function ValidateFormCorrected(p: Page): (q: Page)
    requires WellFormed(p)
    ensures WellFormed(q) && q.controls == ValidateForm(p).controls && q.status == ""
    ensures q.button == Button(false, SendLabel) || q.button == Button(true, FillInLabel)
    ensures !q.button.disabled <==> !SomeRequiredEmpty(p.controls) && EmailFieldValid(p)
    ensures !q.button.disabled <==> HandleSubmit(p).effect.Post?
  {
    var v := ValidateForm(p);
    var ok := AllChecked(v.controls, EmailFieldValid(p));
    assert ok <==> !SomeRequiredEmpty(p.controls) && EmailFieldValid(p) by {
      CheckedIffFilled(p, v);
    }
    v.(button := if ok then Button(false, SendLabel) else Button(true, FillInLabel))
  }

  /** After `validateForm`'s marking, a required control checks valid
      exactly when it is filled. */
  lemma CheckedIffFilled(p: Page, v: Page)
    requires WellFormed(p) && v == ValidateForm(p)
    ensures (forall i :: 0 <= i < |v.controls| && v.controls[i].required ==> CheckValidity(v.controls[i]))
        <==> !SomeRequiredEmpty(p.controls)
  {
    if SomeRequiredEmpty(p.controls) {
      var i :| 0 <= i < |p.controls| && p.controls[i].required && p.controls[i].value == "";
      assert v.controls[i].required && !CheckValidity(v.controls[i]);
    }
  }

  /** On the page above the intended gating keeps the button disabled. */
  lemma CorrectedGateRefuses(p: Page)
    requires p == Page([Control("", "", true, ""), Control("a@b.com", "", true, ""), Control("Hi", "", true, "")],
                       1, Button(true, FillInLabel), "")
    ensures ValidateFormCorrected(p).button == Button(true, FillInLabel)
  {
    assert p.controls[0].required && p.controls[0].value == "";
  }

  /** The markings of a second `validateForm` run are those of the first. */
  lemma RemarkingKeepsControls(p: Page)
    requires WellFormed(p)
    ensures ValidateForm(ValidateForm(p)).controls == ValidateForm(p).controls
  {
  }

  /** Marking a control a second time with the same email verdict leaves it
      as the first marking did. */
  lemma MarkingSettles(c: Control, isEmail: bool, emailValid: bool)
    ensures MarkControl(MarkControl(c, isEmail, emailValid), isEmail, emailValid) == MarkControl(c, isEmail, emailValid)
  {
  }

  /** The button of a second `validateForm` run is that of the first. */
  lemma RegatingKeepsButton(p: Page)
    requires WellFormed(p)
    ensures ValidateForm(ValidateForm(p)).button == ValidateForm(p).button
  {
  }

  /** Running `validateForm` again on the page it left changes nothing:
      the markings and the button depend only on the values. */
  lemma ValidateFormIdempotent(p: Page)
    requires WellFormed(p)
    ensures ValidateForm(ValidateForm(p)) == ValidateForm(p)
  {
  }

  // ------------------------------------------------ after the response

  /** After any status other than 200 the page keeps its controls and button,
      so submitting again issues the same request again. */
  lemma FailureAllowsRetry(p: Page, httpStatus: int)
    requires WellFormed(p) && HandleSubmit(p).effect.Post? && httpStatus != 200
    ensures var q := OnResponse(HandleSubmit(p).page, httpStatus).page;
      && q.button == p.button
      && HandleSubmit(q).effect == HandleSubmit(p).effect
  {
    var q := OnResponse(HandleSubmit(p).page, httpStatus).page;
    assert q.controls == p.controls;
  }

  /** After status 200, on a form whose controls default to empty and which
      has a required control, submitting again is refused until the user
      fills the form in again. */
  lemma SuccessRefusesResubmission(p: Page)
    requires WellFormed(p) && LastRequired(p.controls).Some?
    requires forall i :: 0 <= i < |p.controls| ==> p.controls[i].defaultValue == ""
    ensures var q := OnResponse(p, 200).page;
      && q.button == Button(true, DoneLabel)
      && HandleSubmit(q).effect == Show(MissingFieldsNotice)
  {
    var q := OnResponse(p, 200).page;
    var j := LastRequired(p.controls).value;
    assert q.controls[j].required && q.controls[j].value == "";
  }

  /** The "Done" state is not final: a later `validateForm` run (on an
      input event, when markup attaches it there) relabels the button, and
      enables it again once the last required control and the email are
      filled in. */
  lemma DoneIsNotTerminal(p: Page, name: string, email: string)
    requires WellFormed(p) && LastRequired(p.controls).Some?
    requires name != "" && EmailValid(email) && LastRequired(p.controls).value != p.email
    ensures var done := OnResponse(p, 200).page;
      var last := LastRequired(p.controls).value;
      && done.button == Button(true, DoneLabel)
      && ValidateForm(Typed(Typed(done, p.email, email), last, name)).button == Button(false, SendLabel)
  {
    var done := OnResponse(p, 200).page;
    var last := LastRequired(p.controls).value;
    var q := Typed(Typed(done, p.email, email), last, name);
    SameRequiredSameLast(q.controls, p.controls);
    assert q.controls[last].value == name;
    assert q.controls[p.email].value == email;
  }

  /** The same when `#email` is itself the last required control: typing a
      valid email into it alone re-enables the button. */
  lemma DoneIsNotTerminalWhenEmailLast(p: Page, email: string)
    requires WellFormed(p) && LastRequired(p.controls) == Some(p.email) && EmailValid(email)
    ensures var done := OnResponse(p, 200).page;
      && done.button == Button(true, DoneLabel)
      && ValidateForm(Typed(done, p.email, email)).button == Button(false, SendLabel)
  {
    var done := OnResponse(p, 200).page;
    var q := Typed(done, p.email, email);
    SameRequiredSameLast(q.controls, p.controls);
    assert q.controls[p.email].value == email;
  }
}

=== FILE: wrappers.dfy ===
/** The optional value the search functions return. */
module Wrappers {

  datatype Option<+T> = None | Some(value: T)
}
